=== FILE: README.md ===
# Snake game rules in Dafny

This project models the game logic of a browser snake game (`snake.js`). A
snake, stored as a sequence of cells with the head first, moves across a grid
surrounded by a frame. It grows by eating a dot and loses a life when its head
hits the frame or its own body. Drawing, sound and the browser's event and
timer plumbing are not modelled. The session becomes one immutable `Game`
value, and the two callbacks become pure functions: `Update` for the 25 ms
timer tick and `OnKeyDown` for a key press.

Modules, leaves first:

- `Wrappers`: `Option`, which stands in for the game's `null`.
- `Geometry`: cells, pixel conversion, the board (canvas size), the frame, the dot's spawn range and `RandomCoordinate`.
- `Collision`: rectangle overlap, cell overlap, the frame test and the head-versus-body test.
- `SnakeModel`: directions and their movement vectors, the `Snake` record, movement, growth, turning and reset.
- `GameLoop`: the `Game` record, `Init`, `Restart`, the game step, the tick, the key press and the session invariant `Inv`.

Modelling decisions:

- Cells and pixels are unbounded integers. The board is the canvas size in pixels. `ValidBoard` assumes both sides are multiples of `2 * CELL_SIZE`, so the starting head `(rows / 2, columns / 2)` is a whole cell. It also assumes at least 5 rows and 3 columns, so the spawn range is not empty.
- `Math.random()` becomes a `Roll`: two reals in `[0, 1)`, drawn row first. It is passed as a parameter to every operation that spawns a dot. `RandomCoordinate` applies the same scaling and floor as the source, in exact real arithmetic rather than floating point.
- The time accumulator `ugt` is kept in exact milliseconds. `UPDATE_MILLISECONDS = 1000 / 40 = 25` is exact, and `GAME_UPDATE_TIME = 150`.
- In `autoCollision`, the identity test `s == head` skips the head object. That object is always `squares[0]`, and every segment is a distinct object, so the model skips index 0.
- Directions and key codes are datatypes, not numbers and strings.

## Model

| member | source | states |
|---|---|---|
| Geometry.RowToPixel | snake.js:48-51 | a row's pixel coordinate is a multiple of CELL_SIZE, and dividing it by CELL_SIZE gives back the row |
| Geometry.ColumnToPixel | snake.js:53-56 | a column's pixel coordinate is a multiple of CELL_SIZE, and dividing it by CELL_SIZE gives back the column |
| Geometry.InitFrame | snake.js:132-138 | on a canvas of whole cells, the inside of the frame is `columns - 2` cells wide and `rows - 3` cells high |
| Geometry.RandomCoordinate | snake.js:36-46 | on a board with at least 4 rows and 3 columns, every draw gives a row in [2, rows-2] and a column in [1, columns-2] |
| Geometry.RandomCoordinateCoversSpawnRange | snake.js:36-46 | conversely, every cell in that range is produced by some pair of draws in [0, 1) |
| Collision.IsCollision2 | snake.js:241-284 | the eight rejection tests return true exactly when `x1 < x2+w2 && x2 < x1+w1 && y1 < y2+h2 && y2 < y1+h1` |
| Collision.IsCollision2Symmetric | snake.js:241-284 | swapping the two rectangles does not change the answer |
| Collision.TouchingRectanglesDoNotCollide | snake.js:241-284 | rectangles that share only an edge do not collide |
| Collision.IsCollision | snake.js:286-290 | for a positive size, a cell always overlaps itself; at size CELL_SIZE they overlap exactly when they have the same row and column |
| Collision.IsFrameCollision2 | snake.js:292-315 | a frame collision is reported exactly when the CELL_SIZE square at (x, y) does not lie within the frame's four bounds |
| Collision.IsFrameCollision | snake.js:317-320 | for a frame whose bounds lie on cell edges, a cell collides with the frame exactly when it is outside the frame's columns and rows, counted in cells |
| Collision.FrameCollisionIffOutsideSpawnRange | snake.js:317-320 | with the frame from `initFrame`, on a canvas of whole cells, a cell collides with the frame exactly when it is outside the dot spawn range |
| Collision.SpawnedDotIsInsideFrame | snake.js:151-156 | on a valid board, no spawned dot collides with the frame |
| Collision.SelfCollision | snake.js:322-340 | the head collides with the body exactly when some segment at index > 0 is on the head's cell |
| Collision.AutoCollision | snake.js:322-340 | the loop that skips the head returns true exactly when some segment at index > 0 is on the head's cell |
| SnakeModel.DirectionDelta | snake.js:371-390 | every direction moves exactly one cell along exactly one axis |
| SnakeModel.DirectionDeltaInjective | snake.js:371-390 | different directions have different movement vectors |
| SnakeModel.GetOpposite | snake.js:456-464 | the opposite differs from the direction, and its movement vector is the negated one |
| SnakeModel.OppositeIsInvolution | snake.js:456-464 | taking the opposite twice gives back the original direction |
| SnakeModel.GetHead | snake.js:226-229 | the head is a segment of the snake, it is the segment a move shifts by (dx, dy), and with no self-collision no other segment is on its cell |
| SnakeModel.GetTail | snake.js:231-239 | the result is absent exactly for an empty snake; otherwise it is the last segment |
| SnakeModel.UpdatePosition | snake.js:342-361 | the length is kept, the new head is the old head moved by (dy rows, dx columns), and each new segment i > 0 is the old segment i-1 |
| SnakeModel.UpdatePositionInPlace | snake.js:342-361 | the tail-first in-place loop computes exactly that shift; each value is read before it is overwritten |
| SnakeModel.UpdatePositionKeepsConnected | snake.js:342-361 | moving one cell in a direction keeps consecutive segments adjacent |
| SnakeModel.MoveIntoBodyIsSelfCollision | snake.js:402-406 | after a move, the head is on another segment exactly when it moved onto an old segment other than the tail; the tail's cell is vacated by the same move |
| SnakeModel.AddSquare | snake.js:363-367 | a non-empty snake, whose tail `GetTail` returns, gets exactly one more segment; nothing else about the snake changes; earlier segments are unchanged; the new one is one step `(dx, dy)` behind the old tail |
| SnakeModel.AddSquareKeepsConnected | snake.js:363-367 | growth keeps consecutive segments adjacent |
| SnakeModel.MoveThenGrowSingleCell | snake.js:392-400 | a one-cell snake that moves onto the dot ends up covering the new cell and its old cell |
| SnakeModel.InitSnake | snake.js:140-149 | the reset snake is one head heading EAST with `hit` and `dead` false; on a valid board the head is at the centre (half the rows, half the columns) and inside the spawn range |
| SnakeModel.CheckDirection | snake.js:466-474 | only the heading can change; it changes exactly when the request is neither the current heading nor its opposite; one request never reverses the current heading |
| SnakeModel.CheckDirectionTurnsOnlySideways | snake.js:466-474 | a request takes effect exactly when it is perpendicular to the heading or the same as it |
| SnakeModel.OnePressNeverTurnsBack | snake.js:466-474 | when the heading is the direction of the last step, one accepted or rejected request never points the head back onto the second segment |
| SnakeModel.UpdateSnake | snake.js:369-407 | the head moves one cell in the heading; `hit` holds exactly when it lands on the dot; then the snake grows and `dead` keeps its value; otherwise the length is kept and `dead` holds exactly when the head leaves the frame or is on another segment's cell |
| SnakeModel.UpdateSnakeKeepsConnected | snake.js:369-407 | a game step's movement, with or without growth, keeps the body connected |
| GameLoop.SpawnDot | snake.js:151-156 | only the dot changes, and on a valid board it lands in the spawn range |
| GameLoop.Init | snake.js:187-212 | the loaded session is on the given canvas, Finished, with 3 lives, score and high score 0, music on, the clock at 0, and the invariant holding |
| GameLoop.Restart | snake.js:214-224 | a restart starts Playing with 3 lives, score 0 and the clock at 0; it resets snake and dot and keeps the high score; it preserves the invariant |
| GameLoop.PlayStep | snake.js:415-447 | a step never lowers the high score and leaves board, frame, clock and music setting alone; after eating the snake is the one `updateSnake` produced; when the snake neither eats nor dies, only the snake changes |
| GameLoop.Update | snake.js:409-454 | in a Finished game a tick changes only the clock; no tick lowers the high score |
| GameLoop.OnKeyDown | snake.js:476-512 | repeats change nothing; any key in a Finished game restarts it; while Playing each arrow asks `CheckDirection` for its own direction (left West, up North, right East, down South) and nothing else changes, M only toggles music, other keys do nothing, and a single press never reverses the heading |
| GameLoop.StepFiresOnSixthTick | snake.js:411-413 | a step is due exactly when the clock shows five ticks; before that a tick only adds 25 ms; when it fires the clock returns to 0 |
| GameLoop.FiveQuietTicks | snake.js:409-450 | from a fresh clock, five ticks change nothing but the clock |
| GameLoop.EatingStep | snake.js:419-430 | in a step of a Playing game, when the moved head lands on the dot: still Playing, the snake is exactly the one `updateSnake` produced (moved and grown, heading kept), `hit` set, `dead` unchanged, length + 1, score + 1, high score = max(high score, score), lives unchanged, new dot |
| GameLoop.DyingStep | snake.js:431-446 | in a step of a Playing game, when the moved head misses the dot and lands on the frame or on an old segment other than the tail: lives - 1; at 0 the game is Finished; otherwise it is Playing with a fresh snake and dot; score and high score are unchanged |
| GameLoop.SurvivingStep | snake.js:415-418 | in a step of a Playing game, when the moved head misses the dot, the frame and every old segment but the tail: only the snake and the clock change; the snake has moved one cell, kept its length, and is neither hit nor dead |
| GameLoop.SideArrowsSteerVerticalSnake | snake.js:476-498 | a snake heading north or south turns on the left or right arrow, and its next step puts the head one column left or right on the same row, unless that step cost a life |
| GameLoop.VerticalArrowsSteerSidewaysSnake | snake.js:476-498 | a snake heading west or east turns on the up or down arrow, and its next step puts the head one row up or down in the same column, unless that step cost a life |
| GameLoop.TwoPressesReverse | snake.js:466-498 | the request is checked against the current heading only, so Up then Left on a snake heading East leaves it heading West, the reverse |
| GameLoop.TwoPressesIntoOwnBody | snake.js:409-498 | on a 20 by 20 cell board, a three-segment snake heading East that gets Up then Left within one step moves its head onto its own body at that step and loses a life |
| GameLoop.SurvivingKeepsInv | snake.js:415-418 | after a step with neither eating nor dying, the session invariant still holds |
| GameLoop.SurvivorIsLive | snake.js:402-406 | a snake that neither ate nor died is not dead, still connected, and has its head inside the spawn range, because its head is not on the frame |
| GameLoop.PlayStepKeepsInv | snake.js:415-447 | a step keeps `0 <= lives <= 3`, `0 <= score <= highScore`, the dot in range, and while Playing `lives >= 1`, a non-dead connected snake with its head in range |
| GameLoop.UpdateKeepsInv | snake.js:409-454 | every tick keeps the invariant, including the clock being a whole number of ticks below 150 ms |
| GameLoop.KeyDownKeepsInv | snake.js:476-512 | every key press keeps the invariant |
| GameLoop.Apply | snake.js:409-512 | one timer tick or one key press keeps the invariant, never lowers the high score and keeps the board |
| GameLoop.Run | snake.js:187-212 | after any sequence of ticks and key presses from a valid session, the session is still valid, the high score has not gone down and the board is unchanged |
| GameLoop.ReachableSessionsAreValid | snake.js:187-224 | every session reachable from loading the page has 0 <= lives <= 3, at least one life while Playing, and 0 <= score <= highScore |

## Left out

- Rendering (`fillBackground`, `drawSnake`, `drawDot`, `drawFrame`, `drawText`, `draw`): these only paint the state on the canvas.
- Audio (`startMusic`, `stopMusic`, the `.play()` calls in `update`): these drive browser `Audio` objects. Only the `playMusic` flag is kept, and the M key toggles it. Whether music is actually playing is not modelled.
- DOM and timer plumbing in `init`, `onLoad` and `onUnload`: listeners, canvas lookup, `setInterval` and `clearInterval`. `Init` takes the canvas size as a `Board`. The tick and the key press are explicit function calls.
- `Math.random`: it is a parameter (`Roll`) constrained to `[0, 1)`, not a generator. No uniformity is claimed.
- Fractional cells: JavaScript numbers allow non-integer `columns`, `rows` and a fractional centre. The model uses integers and assumes canvas sides that are multiples of `2 * CELL_SIZE`.
- GetHead: requires a snake with at least one segment. On an empty snake the source returns `undefined`; the game never calls it on one.
- AddSquare: requires a snake with at least one segment. On an empty snake the source throws a TypeError; the game only grows a snake that has just moved, which has segments.
- UpdateSnake: requires a snake with at least one segment. On an empty snake the source throws a TypeError when it reads the head; the game never empties the snake.
- PlayStep: requires a snake with at least one segment. On an empty snake the source throws a TypeError when it reads the head; the game never empties the snake.
- Update: requires a snake with at least one segment while playing. On an empty snake the source throws a TypeError when it reads the head; the game never empties the snake.
- RandomCoordinate: the scaling `u * (rows - 3) + 2` is computed in exact reals. In IEEE doubles the largest draw (1 - 2^-53) can round up to `rows - 1`, so the program can place the dot one row past the spawn range, on the frame row; the model and `SpawnedDotIsInsideFrame` do not cover that rounding.
- CheckDirection: the no-reverse rule holds for one key press only. It compares the request with the current heading, not with the direction of the last step, so two presses between steps can reverse the snake into its own body (`TwoPressesReverse`, `TwoPressesIntoOwnBody`). The model keeps this behaviour of the source.
- The dot may spawn on a snake segment. The source does not prevent this, and the model keeps that behaviour.

=== FILE: collision.dfy ===
/**
 Collision tests of the snake game: axis-aligned rectangle overlap in pixels,
 its use on two cells, the test of a cell against the playable frame, and the
 test of the head against the rest of the body.
 */
module Collision {
  import opened Geometry

  /** The half-open intervals [a, a + wa) and [b, b + wb) intersect. */
  predicate Overlap(a: int, wa: int, b: int, wb: int)
  {
    a < b + wb && b < a + wa
  }

  /** Rectangle overlap as eight rejection tests. They reduce to the two
      intervals overlapping on both axes, so rectangles that merely touch at
      an edge do not collide. */
  function IsCollision2(x1: int, y1: int, w1: int, h1: int,
                        x2: int, y2: int, w2: int, h2: int): (r: bool)
    ensures r <==> Overlap(x1, w1, x2, w2) && Overlap(y1, h1, y2, h2)
  {
    if x1 + w1 < x2 then false
    else if x1 >= x2 + w2 then false
    else if y1 + h1 < y2 then false
    else if y1 >= y2 + h2 then false
    else if x2 + w2 < x1 then false
    else if x2 >= x1 + w1 then false
    else if y2 + h2 < y1 then false
    else if y2 >= y1 + h1 then false
    else true
  }

  /** The overlap test does not depend on the order of its two rectangles. */
  lemma IsCollision2Symmetric(x1: int, y1: int, w1: int, h1: int,
                              x2: int, y2: int, w2: int, h2: int)
    ensures IsCollision2(x1, y1, w1, h1, x2, y2, w2, h2)
         == IsCollision2(x2, y2, w2, h2, x1, y1, w1, h1)
  {
  }

  /** Rectangles sharing only a vertical or a horizontal edge do not collide. */
  lemma TouchingRectanglesDoNotCollide(x1: int, y1: int, w1: int, h1: int,
                                       x2: int, y2: int, w2: int, h2: int)
    requires x1 + w1 == x2 || x2 + w2 == x1 || y1 + h1 == y2 || y2 + h2 == y1
    ensures !IsCollision2(x1, y1, w1, h1, x2, y2, w2, h2)
  {
  }

  /** Two cells, drawn as squares of side `size`, overlap. With the game's own
      cell size this is exactly "same cell". */
  function IsCollision(p1: Cell, p2: Cell, size: int): (r: bool)
    ensures size > 0 && p1 == p2 ==> r
    ensures size == CELL_SIZE ==> (r <==> p1 == p2)
  {
    IsCollision2(ColumnToPixel(p1.column), RowToPixel(p1.row), size, size,
                 ColumnToPixel(p2.column), RowToPixel(p2.row), size, size)
  }

  /** The CELL_SIZE square with top-left corner (x, y) lies inside the frame. */
  predicate SquareInside(frame: Frame, x: int, y: int)
  {
    && frame.left <= x && x + CELL_SIZE <= frame.right
    && frame.top <= y && y + CELL_SIZE <= frame.bottom
  }

  /** The square at (x, y) crosses a bound of the frame. */
  function IsFrameCollision2(frame: Frame, x: int, y: int): (r: bool)
    ensures r <==> !SquareInside(frame, x, y)
  {
    if x < frame.left then true
    else if y < frame.top then true
    else if x + CELL_SIZE > frame.right then true
    else if y + CELL_SIZE > frame.bottom then true
    else false
  }

  /** A frame whose four bounds fall on cell edges. */
  predicate OnCellEdges(frame: Frame)
  {
    && frame.left % CELL_SIZE == 0 && frame.top % CELL_SIZE == 0
    && frame.right % CELL_SIZE == 0 && frame.bottom % CELL_SIZE == 0
  }

  /** The cell's square crosses a bound of the frame. For a frame on cell
      edges that means the cell lies outside the frame's columns
      [left, right) and rows [top, bottom), counted in cells. */
  function IsFrameCollision(frame: Frame, p: Cell): (r: bool)
    ensures OnCellEdges(frame) ==>
              (r <==> !(&& frame.left / CELL_SIZE <= p.column < frame.right / CELL_SIZE
                        && frame.top / CELL_SIZE <= p.row < frame.bottom / CELL_SIZE))
  {
    IsFrameCollision2(frame, ColumnToPixel(p.column), RowToPixel(p.row))
  }

  /** On a canvas of whole cells, with the frame the game sets up, a cell
      collides with the frame exactly when it is outside the dot's spawn range. */
  lemma FrameCollisionIffOutsideSpawnRange(b: Board, p: Cell)
    requires b.canvasWidth % CELL_SIZE == 0 && b.canvasHeight % CELL_SIZE == 0
    ensures IsFrameCollision(InitFrame(b.canvasWidth, b.canvasHeight), p) <==> !InSpawnRange(b, p)
  {
  }

  /** A dot is never spawned on the frame. */
  lemma SpawnedDotIsInsideFrame(b: Board, roll: Roll)
    requires ValidBoard(b)
    requires ValidRoll(roll)
    ensures !IsFrameCollision(InitFrame(b.canvasWidth, b.canvasHeight), RandomCoordinate(b, roll))
  {
  }

  /** Some segment other than the head (index 0) overlaps the head. */
  function SelfCollision(squares: seq<Cell>): (r: bool)
    ensures r <==> exists i :: 0 < i < |squares| && squares[i] == squares[0]
  {
    exists i :: 0 < i < |squares| && IsCollision(squares[0], squares[i], CELL_SIZE)
  }

  /** The head-versus-body loop. The head object is always `squares[0]`, so
      the identity test that skips it is the test `i == 0`. */
  method AutoCollision(squares: seq<Cell>) returns (collides: bool)
    ensures collides == SelfCollision(squares)
    ensures collides <==> exists i :: 0 < i < |squares| && squares[i] == squares[0]
  {
    var i := 0;
    while i < |squares|
      invariant 0 <= i <= |squares|
      invariant forall j :: 0 < j < i ==> squares[j] != squares[0]
    {
      if i == 0 {
        i := i + 1;
        continue;
      }
      if IsCollision(squares[0], squares[i], CELL_SIZE) {
        return true;
      }
      i := i + 1;
    }
    return false;
  }
}

=== FILE: game.dfy ===
/**
 The session state and its two entry points: the periodic tick, which every
 sixth call runs one game step (move, eat or die, score and lives), and the
 key press, which restarts a finished game or steers the snake.
 */
module GameLoop {
  import opened Geometry
  import opened Collision
  import opened SnakeModel

  const FPS: int := 40
  /** Milliseconds between two ticks: exactly 25, so time can be counted exactly. */
  const UPDATE_MILLISECONDS: int := 1000 / FPS
  /** Milliseconds between two game steps: six ticks. */
  const GAME_UPDATE_TIME: int := 6 * UPDATE_MILLISECONDS
  const START_LIVES: int := 3

  const START_MESSAGE: string := "PRESS ANY KEY TO PLAY"
  const RESTART_MESSAGE: string := "PRESS ANY KEY TO PLAY AGAIN"

  datatype State = Playing | Finished

  /** The whole session. `ugt` is the time accumulated since the last game
      step, in milliseconds. */
  datatype Game = Game(
    board: Board,
    frame: Frame,
    state: State,
    ugt: int,
    lives: int,
    score: int,
    highScore: int,
    playMusic: bool,
    startMessage: string,
    snake: Snake,
    dot: Cell)

  datatype KeyCode = ArrowLeft | ArrowUp | ArrowRight | ArrowDown | KeyM | OtherKey

  /** A key press; `repeat` is set for the auto-repeat of a held key. */
  datatype KeyEvent = KeyEvent(code: KeyCode, repeat: bool)

  function Max(a: int, b: int): int
  {
    if a < b then b else a
  }

  /** What holds of every reachable session. */
  predicate Inv(g: Game)
  {
    && 0 <= g.ugt < GAME_UPDATE_TIME && g.ugt % UPDATE_MILLISECONDS == 0
    && RulesInv(g)
  }

  /** The part of the invariant that does not concern the clock. */
  predicate RulesInv(g: Game)
  {
    && ValidBoard(g.board)
    && g.frame == InitFrame(g.board.canvasWidth, g.board.canvasHeight)
    && 0 <= g.lives <= START_LIVES
    && 0 <= g.score <= g.highScore
    && InSpawnRange(g.board, g.dot)
    && (g.state == Playing ==> g.lives >= 1 && LiveSnake(g.board, g.snake))
  }

  /** A snake in play: not dead, connected, with its head inside the frame. */
  predicate LiveSnake(b: Board, s: Snake)
  {
    && |s.squares| > 0
    && !s.dead
    && InSpawnRange(b, GetHead(s))
    && Connected(s.squares)
  }

  /** A new dot at a random cell of the spawn range. */
  function SpawnDot(g: Game, roll: Roll): (r: Game)
    requires ValidRoll(roll)
    ensures r == g.(dot := r.dot)
    ensures ValidBoard(g.board) ==> InSpawnRange(g.board, r.dot)
  {
    g.(dot := RandomCoordinate(g.board, roll))
  }

  /** The session as the page loads it: finished (waiting for a key), full
      lives, no score, music enabled, a fresh snake and dot. */
  function Init(b: Board, roll: Roll): (g: Game)
    requires ValidBoard(b)
    requires ValidRoll(roll)
    ensures Inv(g)
    ensures g.state == Finished && g.lives == START_LIVES && g.score == 0 && g.highScore == 0
    ensures g.playMusic && g.ugt == 0
    ensures g.board == b
  {
    Game(b, InitFrame(b.canvasWidth, b.canvasHeight), Finished, 0, START_LIVES, 0, 0,
         true, START_MESSAGE, InitSnake(b), RandomCoordinate(b, roll))
  }

  /** A new game: playing, full lives, score 0; the high score, the board and
      the music setting are kept. */
  function Restart(g: Game, roll: Roll): (r: Game)
    requires ValidRoll(roll)
    ensures Inv(g) ==> Inv(r)
    ensures r.state == Playing && r.lives == START_LIVES && r.score == 0 && r.ugt == 0
    ensures r.highScore == g.highScore && r.board == g.board && r.playMusic == g.playMusic
    ensures r.snake == InitSnake(g.board) && r.dot == RandomCoordinate(g.board, roll)
  {
    var g1 := g.(state := Playing, ugt := 0, lives := START_LIVES, score := 0,
                 startMessage := RESTART_MESSAGE, snake := InitSnake(g.board));
    SpawnDot(g1, roll)
  }

  /** One game step while playing: move; on eating, score and maybe raise the
      high score and respawn the dot; on dying, lose a life and either finish
      or start the next life with a fresh snake and dot. */
  function PlayStep(g: Game, roll: Roll): (r: Game)
    requires |g.snake.squares| > 0
    requires ValidRoll(roll)
    ensures r.board == g.board && r.frame == g.frame && r.ugt == g.ugt && r.playMusic == g.playMusic
    ensures r.highScore >= g.highScore
    ensures var s := UpdateSnake(g.snake, g.dot, g.frame);
            !s.hit && !s.dead ==> r == g.(snake := s)
    ensures var s := UpdateSnake(g.snake, g.dot, g.frame);
            s.hit ==> r.snake == s
  {
    var s := UpdateSnake(g.snake, g.dot, g.frame);
    if s.hit then
      var score := g.score + 1;
      SpawnDot(g.(snake := s, score := score, highScore := Max(g.highScore, score)), roll)
    else if s.dead then
      var lives := g.lives - 1;
      if lives == 0 then
        g.(snake := s, lives := lives, state := Finished)
      else
        SpawnDot(g.(snake := InitSnake(g.board), lives := lives), roll)
    else
      g.(snake := s)
  }

  /** The tick: time advances by one tick; when a step is due, a playing game
      takes one step and the time restarts from zero. A finished game only
      counts time, and the high score never goes down. */
  function Update(g: Game, roll: Roll): (r: Game)
    requires g.state == Playing ==> |g.snake.squares| > 0
    requires ValidRoll(roll)
    ensures g.state == Finished ==> r == g.(ugt := r.ugt)
    ensures r.highScore >= g.highScore
    ensures r.board == g.board && r.playMusic == g.playMusic
  {
    var g1 := g.(ugt := g.ugt + UPDATE_MILLISECONDS);
    if g1.ugt >= GAME_UPDATE_TIME then
      var g2 := if g1.state == Playing then PlayStep(g1, roll) else g1;
      g2.(ugt := 0)
    else
      g1
  }

  /** A key press: auto-repeats are ignored; in a finished game any key starts
      a new one; while playing, the arrows steer and M toggles the music. */
  function OnKeyDown(g: Game, e: KeyEvent, roll: Roll): (r: Game)
    requires ValidRoll(roll)
    ensures e.repeat ==> r == g
    ensures !e.repeat && g.state == Finished ==> r == Restart(g, roll)
    ensures g.state == Playing ==> r == g.(snake := r.snake, playMusic := r.playMusic)
    ensures g.state == Playing ==> r.snake.direction != GetOpposite(g.snake.direction)
    ensures !e.repeat && g.state == Playing && e.code == KeyM ==> r == g.(playMusic := !g.playMusic)
    ensures g.state == Playing && e.code != KeyM ==> r.playMusic == g.playMusic
    ensures g.state == Playing && e.code == OtherKey ==> r == g
    ensures !e.repeat && g.state == Playing && e.code == ArrowLeft ==> r == g.(snake := CheckDirection(g.snake, West))
    ensures !e.repeat && g.state == Playing && e.code == ArrowUp ==> r == g.(snake := CheckDirection(g.snake, North))
    ensures !e.repeat && g.state == Playing && e.code == ArrowRight ==> r == g.(snake := CheckDirection(g.snake, East))
    ensures !e.repeat && g.state == Playing && e.code == ArrowDown ==> r == g.(snake := CheckDirection(g.snake, South))
    ensures r.highScore == g.highScore
  {
    if e.repeat then g
    else
      match g.state
      case Playing =>
        (match e.code
         case ArrowLeft => g.(snake := CheckDirection(g.snake, West))
         case ArrowUp => g.(snake := CheckDirection(g.snake, North))
         case ArrowRight => g.(snake := CheckDirection(g.snake, East))
         case ArrowDown => g.(snake := CheckDirection(g.snake, South))
         case KeyM => g.(playMusic := !g.playMusic)
         case OtherKey => g)
      case Finished => Restart(g, roll)
  }

  /** A step is due exactly on the sixth tick after the last one. */
  lemma StepFiresOnSixthTick(g: Game, roll: Roll)
    requires Inv(g)
    requires ValidRoll(roll)
    ensures g.ugt + UPDATE_MILLISECONDS >= GAME_UPDATE_TIME <==> g.ugt == 5 * UPDATE_MILLISECONDS
    ensures g.ugt < 5 * UPDATE_MILLISECONDS ==> Update(g, roll) == g.(ugt := g.ugt + UPDATE_MILLISECONDS)
    ensures g.ugt == 5 * UPDATE_MILLISECONDS ==> Update(g, roll).ugt == 0
  {
  }

  /** From a fresh clock, five ticks change nothing but the clock. */
  lemma FiveQuietTicks(g: Game, r1: Roll, r2: Roll, r3: Roll, r4: Roll, r5: Roll)
    requires Inv(g) && g.ugt == 0
    requires ValidRoll(r1) && ValidRoll(r2) && ValidRoll(r3) && ValidRoll(r4) && ValidRoll(r5)
    ensures Update(Update(Update(Update(Update(g, r1), r2), r3), r4), r5)
            == g.(ugt := 5 * UPDATE_MILLISECONDS)
  {
  }

  /** The step in which the moved head lands on the dot: the snake grows by
      one, `dead` is not recomputed, the score goes up by one, the high score
      becomes the larger of the two, and a new dot is spawned. */
  lemma EatingStep(g: Game, roll: Roll)
    requires g.state == Playing && |g.snake.squares| > 0
    requires g.ugt + UPDATE_MILLISECONDS >= GAME_UPDATE_TIME
    requires ValidRoll(roll)
    requires var v := DirectionDelta(g.snake.direction);
             Shift(GetHead(g.snake), v.dx, v.dy) == g.dot
    ensures var r := Update(g, roll);
            && r.state == Playing
            && r.snake == UpdateSnake(g.snake, g.dot, g.frame)
            && r.snake.hit
            && r.snake.dead == g.snake.dead
            && |r.snake.squares| == |g.snake.squares| + 1
            && r.score == g.score + 1
            && r.highScore == Max(g.highScore, g.score + 1)
            && r.lives == g.lives
            && r.dot == RandomCoordinate(g.board, roll)
            && r.ugt == 0
  {
  }

  /** The step in which the moved head misses the dot and hits the frame or
      the body: a life is lost; the last life ends the game, otherwise the
      next life starts with a fresh snake and dot. Score and high score stay. */
  lemma DyingStep(g: Game, roll: Roll)
    requires g.state == Playing && |g.snake.squares| > 0
    requires g.ugt + UPDATE_MILLISECONDS >= GAME_UPDATE_TIME
    requires ValidRoll(roll)
    requires var v := DirectionDelta(g.snake.direction);
             var head := Shift(GetHead(g.snake), v.dx, v.dy);
             && head != g.dot
             && (IsFrameCollision(g.frame, head) || MovesIntoBody(g.snake.squares, head))
    ensures var r := Update(g, roll);
            && r.lives == g.lives - 1
            && (r.lives == 0 ==> r.state == Finished)
            && (r.lives > 0 ==>
                  r.state == Playing && r.snake == InitSnake(g.board) && r.dot == RandomCoordinate(g.board, roll))
            && r.score == g.score
            && r.highScore == g.highScore
            && r.ugt == 0
  {
    var v := DirectionDelta(g.snake.direction);
    MoveIntoBodyIsSelfCollision(g.snake.squares, v.dx, v.dy);
  }

  /** The step in which the moved head misses the dot, the frame and every
      old segment but the tail: only the snake changes, it moves one cell
      with its length kept, and it is not dead. */
  lemma SurvivingStep(g: Game, roll: Roll)
    requires g.state == Playing && |g.snake.squares| > 0
    requires g.ugt + UPDATE_MILLISECONDS >= GAME_UPDATE_TIME
    requires ValidRoll(roll)
    requires var v := DirectionDelta(g.snake.direction);
             var head := Shift(GetHead(g.snake), v.dx, v.dy);
             && head != g.dot
             && !IsFrameCollision(g.frame, head)
             && !MovesIntoBody(g.snake.squares, head)
    ensures var v := DirectionDelta(g.snake.direction);
            var r := Update(g, roll);
            && r == g.(snake := r.snake, ugt := 0)
            && r.snake == g.snake.(squares := UpdatePosition(g.snake.squares, v.dx, v.dy), hit := false, dead := false)
  {
    var v := DirectionDelta(g.snake.direction);
    MoveIntoBodyIsSelfCollision(g.snake.squares, v.dx, v.dy);
  }

  /** A sideways arrow turns a snake heading north or south, and the next step
      moves its head one column left or right on the same row, unless that
      step cost a life. */
  lemma SideArrowsSteerVerticalSnake(g: Game, press: Roll, tick: Roll)
    requires g.state == Playing && |g.snake.squares| > 0
    requires g.snake.direction == North || g.snake.direction == South
    requires g.ugt + UPDATE_MILLISECONDS >= GAME_UPDATE_TIME
    requires ValidRoll(press) && ValidRoll(tick)
    ensures var h := g.snake.squares[0];
            var left := Update(OnKeyDown(g, KeyEvent(ArrowLeft, false), press), tick);
            var right := Update(OnKeyDown(g, KeyEvent(ArrowRight, false), press), tick);
            && (left.lives == g.lives ==> |left.snake.squares| > 0 && left.snake.squares[0] == Cell(h.row, h.column - 1))
            && (right.lives == g.lives ==> |right.snake.squares| > 0 && right.snake.squares[0] == Cell(h.row, h.column + 1))
  {
  }

  /** An up or down arrow turns a snake heading west or east, and the next
      step moves its head one row up or down in the same column, unless that
      step cost a life. */
  lemma VerticalArrowsSteerSidewaysSnake(g: Game, press: Roll, tick: Roll)
    requires g.state == Playing && |g.snake.squares| > 0
    requires g.snake.direction == West || g.snake.direction == East
    requires g.ugt + UPDATE_MILLISECONDS >= GAME_UPDATE_TIME
    requires ValidRoll(press) && ValidRoll(tick)
    ensures var h := g.snake.squares[0];
            var up := Update(OnKeyDown(g, KeyEvent(ArrowUp, false), press), tick);
            var down := Update(OnKeyDown(g, KeyEvent(ArrowDown, false), press), tick);
            && (up.lives == g.lives ==> |up.snake.squares| > 0 && up.snake.squares[0] == Cell(h.row - 1, h.column))
            && (down.lives == g.lives ==> |down.snake.squares| > 0 && down.snake.squares[0] == Cell(h.row + 1, h.column))
  {
  }

  /** The heading is checked against the current heading, not against the
      last step taken, so two presses within one step can reverse the snake:
      heading east, up then left leaves it heading west. */
  lemma TwoPressesReverse(g: Game, r1: Roll, r2: Roll)
    requires g.state == Playing && g.snake.direction == East
    requires ValidRoll(r1) && ValidRoll(r2)
    ensures OnKeyDown(OnKeyDown(g, KeyEvent(ArrowUp, false), r1), KeyEvent(ArrowLeft, false), r2).snake.direction
            == GetOpposite(g.snake.direction)
  {
  }

  /** A concrete session in which those two presses, made during one step,
      turn a three-segment snake back into its own body and cost a life. */
  lemma TwoPressesIntoOwnBody(r1: Roll, r2: Roll, tick: Roll)
    requires ValidRoll(r1) && ValidRoll(r2) && ValidRoll(tick)
    ensures var b := Board(320, 320);
            var g := Game(b, InitFrame(320, 320), Playing, 5 * UPDATE_MILLISECONDS, START_LIVES, 0, 0,
                          true, RESTART_MESSAGE, Snake([Cell(5, 5), Cell(5, 4), Cell(5, 3)], East, false, false),
                          Cell(2, 1));
            var pressed := OnKeyDown(OnKeyDown(g, KeyEvent(ArrowUp, false), r1), KeyEvent(ArrowLeft, false), r2);
            var r := Update(pressed, tick);
            && Inv(g)
            && r.lives == g.lives - 1
            && r.state == Playing
            && r.snake == InitSnake(b)
  {
    var moved := UpdatePosition([Cell(5, 5), Cell(5, 4), Cell(5, 3)], -1, 0);
    assert moved[2] == moved[0];
  }

  /** Surviving keeps the invariant: a head that did not die is not on the
      frame, so it is inside the spawn range. */
  lemma SurvivingKeepsInv(g: Game, roll: Roll)
    requires RulesInv(g) && g.state == Playing
    requires ValidRoll(roll)
    requires !UpdateSnake(g.snake, g.dot, g.frame).hit && !UpdateSnake(g.snake, g.dot, g.frame).dead
    ensures RulesInv(PlayStep(g, roll))
  {
    var s := UpdateSnake(g.snake, g.dot, g.frame);
    SurvivorIsLive(g.board, g.snake, g.dot);
    assert PlayStep(g, roll) == g.(snake := s);
  }

  /** A snake that neither ate nor died in a step within the game's frame is
      still a snake in play. */
  lemma SurvivorIsLive(b: Board, snake: Snake, dot: Cell)
    requires ValidBoard(b)
    requires LiveSnake(b, snake)
    requires var s := UpdateSnake(snake, dot, InitFrame(b.canvasWidth, b.canvasHeight));
             !s.hit && !s.dead
    ensures LiveSnake(b, UpdateSnake(snake, dot, InitFrame(b.canvasWidth, b.canvasHeight)))
  {
    var frame := InitFrame(b.canvasWidth, b.canvasHeight);
    var s := UpdateSnake(snake, dot, frame);
    UpdateSnakeKeepsConnected(snake, dot, frame);
    FrameCollisionIffOutsideSpawnRange(b, s.squares[0]);
  }

  /** A game step keeps the session invariant, whichever way it ends. */
  lemma PlayStepKeepsInv(g: Game, roll: Roll)
    requires RulesInv(g) && g.state == Playing
    requires ValidRoll(roll)
    ensures RulesInv(PlayStep(g, roll))
  {
    var s := UpdateSnake(g.snake, g.dot, g.frame);
    if s.hit {
      UpdateSnakeKeepsConnected(g.snake, g.dot, g.frame);
    } else if !s.dead {
      SurvivingKeepsInv(g, roll);
    }
  }

  /** Changing only the clock keeps the rules part of the invariant. */
  lemma RulesInvIgnoresClock(g: Game, t: int)
    requires RulesInv(g)
    ensures RulesInv(g.(ugt := t))
  {
  }

  /** Adding one tick to a whole number of ticks gives a whole number of ticks. */
  lemma ClockStaysAligned(t: int)
    requires t % UPDATE_MILLISECONDS == 0
    ensures (t + UPDATE_MILLISECONDS) % UPDATE_MILLISECONDS == 0
  {
  }

  /** Every tick keeps the session invariant. */
  lemma UpdateKeepsInv(g: Game, roll: Roll)
    requires Inv(g)
    requires ValidRoll(roll)
    ensures Inv(Update(g, roll))
  {
    var g1 := g.(ugt := g.ugt + UPDATE_MILLISECONDS);
    if g1.ugt >= GAME_UPDATE_TIME && g1.state == Playing {
      PlayStepKeepsInv(g1, roll);
      RulesInvIgnoresClock(PlayStep(g1, roll), 0);
    } else {
      RulesInvIgnoresClock(g, Update(g, roll).ugt);
      ClockStaysAligned(g.ugt);
    }
  }

  /** Every key press keeps the session invariant. */
  lemma KeyDownKeepsInv(g: Game, e: KeyEvent, roll: Roll)
    requires Inv(g)
    requires ValidRoll(roll)
    ensures Inv(OnKeyDown(g, e, roll))
  {
  }

  /** What can happen to a session: a timer tick or a key press. The roll is
      the randomness a dot spawn would use during that event. */
  datatype Event = Tick(roll: Roll) | Press(key: KeyEvent, roll: Roll)

  predicate ValidEvents(events: seq<Event>)
  {
    forall i :: 0 <= i < |events| ==> ValidRoll(events[i].roll)
  }

  /** The session after one event. */
  function Apply(g: Game, e: Event): (r: Game)
    requires Inv(g)
    requires ValidRoll(e.roll)
    ensures Inv(r)
    ensures r.highScore >= g.highScore
    ensures r.board == g.board
  {
    match e
    case Tick(roll) => UpdateKeepsInv(g, roll); Update(g, roll)
    case Press(key, roll) => KeyDownKeepsInv(g, key, roll); OnKeyDown(g, key, roll)
  }

  /** The session after a sequence of events. Every session reached this way
      from a valid one is valid, and the high score never decreases. */
  function Run(g: Game, events: seq<Event>): (r: Game)
    requires Inv(g)
    requires ValidEvents(events)
    ensures Inv(r)
    ensures r.highScore >= g.highScore
    ensures r.board == g.board
    decreases |events|
  {
    if |events| == 0 then g else Run(Apply(g, events[0]), events[1..])
  }

  /** Every session the page can reach, from loading through any ticks and key
      presses, satisfies the invariant: lives within [0, 3] and at least 1
      while playing, and a score that never exceeds the high score. */
  lemma ReachableSessionsAreValid(b: Board, roll: Roll, events: seq<Event>)
    requires ValidBoard(b)
    requires ValidRoll(roll)
    requires ValidEvents(events)
    ensures var r := Run(Init(b, roll), events);
            && 0 <= r.lives <= START_LIVES
            && (r.state == Playing ==> r.lives >= 1)
            && 0 <= r.score <= r.highScore
  {
  }
}

=== FILE: geometry.dfy ===
/**
 Grid geometry of the snake game: cells addressed by row and column, their
 pixel coordinates, the board derived from the canvas, the playable frame
 inset from the canvas edges, and the range of cells a dot may spawn on.
 */
module Geometry {

  /** Side of one cell, in pixels. */
  const CELL_SIZE: int := 16

  /** One grid cell. */
  datatype Cell = Cell(row: int, column: int)

  /** The pixel coordinate of a row's top edge: a multiple of CELL_SIZE that
      divides back to the row. */
  function RowToPixel(row: int): (y: int)
    ensures y % CELL_SIZE == 0 && y / CELL_SIZE == row
  {
    CELL_SIZE * row
  }

  /** The pixel coordinate of a column's left edge: a multiple of CELL_SIZE
      that divides back to the column. */
  function ColumnToPixel(column: int): (x: int)
    ensures x % CELL_SIZE == 0 && x / CELL_SIZE == column
  {
    CELL_SIZE * column
  }

  /** The drawing surface. Columns and rows are its size in cells. */
  datatype Board = Board(canvasWidth: int, canvasHeight: int)
  {
    function Columns(): int
    {
      canvasWidth / CELL_SIZE
    }

    function Rows(): int
    {
      canvasHeight / CELL_SIZE
    }
  }

  /** The boards the model is about: both canvas sides are whole multiples of
      two cells (so the board centre is a whole cell), there is room for the
      frame, the status row and at least one playable row and column. */
  predicate ValidBoard(b: Board)
  {
    && b.canvasWidth % (2 * CELL_SIZE) == 0
    && b.canvasHeight % (2 * CELL_SIZE) == 0
    && b.Rows() >= 5
    && b.Columns() >= 3
  }

  /** Pixel bounds of the playable area. */
  datatype Frame = Frame(left: int, top: int, right: int, bottom: int)

  /** The frame leaves one cell at the left, right and bottom edges and two at
      the top (the frame row plus a status row). For a canvas made of whole
      cells, its inside spans `columns - 2` columns and `rows - 3` rows. */
  function InitFrame(canvasWidth: int, canvasHeight: int): (f: Frame)
    ensures canvasWidth % CELL_SIZE == 0 ==>
              f.right - f.left == (canvasWidth / CELL_SIZE - 2) * CELL_SIZE
    ensures canvasHeight % CELL_SIZE == 0 ==>
              f.bottom - f.top == (canvasHeight / CELL_SIZE - 3) * CELL_SIZE
  {
    Frame(CELL_SIZE, 2 * CELL_SIZE, canvasWidth - CELL_SIZE, canvasHeight - CELL_SIZE)
  }

  /** Cells a dot may be placed on: rows 0 and 1 (frame and status text) and
      the last row, and the first and last columns, are excluded. */
  predicate InSpawnRange(b: Board, p: Cell)
  {
    2 <= p.row <= b.Rows() - 2 && 1 <= p.column <= b.Columns() - 2
  }

  /** Two draws of a uniform random number generator, row first. */
  datatype Roll = Roll(u: real, v: real)

  predicate ValidRoll(r: Roll)
  {
    0.0 <= r.u < 1.0 && 0.0 <= r.v < 1.0
  }

  /** `floor(u * n + offset)` for a draw `u` in [0, 1) lies in [offset, offset + n - 1]. */
  lemma ScaledFloorBounds(u: real, n: int, offset: int)
    requires 0.0 <= u < 1.0
    requires n >= 1
    ensures offset <= (u * n as real + offset as real).Floor <= offset + n - 1
  {
    assert 0.0 <= u * n as real;
    assert u * n as real < n as real by {
      assert (1.0 - u) * n as real > 0.0;
    }
  }

  /** A random cell; on any board with a non-empty spawn range the result is
      inside that range. */
  function RandomCoordinate(b: Board, roll: Roll): (p: Cell)
    requires ValidRoll(roll)
    ensures b.Rows() >= 4 && b.Columns() >= 3 ==> InSpawnRange(b, p)
  {
    var p := Cell((roll.u * (b.Rows() - 3) as real + 2.0).Floor,
                  (roll.v * (b.Columns() - 2) as real + 1.0).Floor);
    assert b.Rows() >= 4 && b.Columns() >= 3 ==> InSpawnRange(b, p) by {
      if b.Rows() >= 4 && b.Columns() >= 3 {
        ScaledFloorBounds(roll.u, b.Rows() - 3, 2);
        ScaledFloorBounds(roll.v, b.Columns() - 2, 1);
      }
    }
    p
  }

  /** Every draw `k` in [0, n) is reached by the draw `u = k / n`. */
  lemma ScaledFloorReaches(k: int, n: int, offset: int) returns (u: real)
    requires 0 <= k < n
    ensures 0.0 <= u < 1.0
    ensures (u * n as real + offset as real).Floor == offset + k
  {
    u := k as real / n as real;
    assert u * n as real == k as real;
  }

  /** Conversely, every cell of the spawn range is produced by some draw. */
  lemma RandomCoordinateCoversSpawnRange(b: Board, p: Cell)
    requires InSpawnRange(b, p)
    ensures exists roll :: ValidRoll(roll) && RandomCoordinate(b, roll) == p
  {
    var u := ScaledFloorReaches(p.row - 2, b.Rows() - 3, 2);
    var v := ScaledFloorReaches(p.column - 1, b.Columns() - 2, 1);
    assert RandomCoordinate(b, Roll(u, v)) == p;
  }
}

=== FILE: snake.dfy ===
/**
 The snake: an ordered sequence of cells, head first, with its heading and the
 per-step `hit` and `dead` flags; how it moves, grows, turns and is reset.
 */
module SnakeModel {
  import opened Wrappers
  import opened Geometry
  import opened Collision

  datatype Direction = West | North | East | South

  /** A movement vector in cell units: `dx` columns, `dy` rows. */
  datatype Delta = Delta(dx: int, dy: int)

  function Abs(x: int): nat
  {
    if x < 0 then -x else x
  }

  /** The movement of one step in each direction. Every direction moves by
      exactly one cell along exactly one axis. */
  function DirectionDelta(d: Direction): (v: Delta)
    ensures Abs(v.dx) + Abs(v.dy) == 1
  {
    match d
    case West => Delta(-1, 0)
    case North => Delta(0, -1)
    case East => Delta(1, 0)
    case South => Delta(0, 1)
  }

  /** Distinct directions move differently. */
  lemma DirectionDeltaInjective(d: Direction, e: Direction)
    ensures DirectionDelta(d) == DirectionDelta(e) ==> d == e
  {
  }

  /** The direction pointing the other way: its movement is the negated one. */
  function GetOpposite(d: Direction): (o: Direction)
    ensures o != d
    ensures DirectionDelta(o) == Delta(-DirectionDelta(d).dx, -DirectionDelta(d).dy)
  {
    match d
    case West => East
    case North => South
    case East => West
    case South => North
  }

  /** Taking the opposite twice gives back the original direction. */
  lemma OppositeIsInvolution(d: Direction)
    ensures GetOpposite(GetOpposite(d)) == d
  {
  }

  datatype Snake = Snake(squares: seq<Cell>, direction: Direction, hit: bool, dead: bool)

  /** Two cells one step apart along one axis. */
  predicate Adjacent(a: Cell, b: Cell)
  {
    Abs(a.row - b.row) + Abs(a.column - b.column) == 1
  }

  /** Consecutive segments are adjacent cells. */
  predicate Connected(squares: seq<Cell>)
  {
    forall i :: 0 < i < |squares| ==> Adjacent(squares[i - 1], squares[i])
  }

  /** The head. The game only asks for it once the snake has a segment. */
  function GetHead(snake: Snake): (head: Cell)
    requires |snake.squares| > 0
    ensures head in snake.squares
    ensures forall dx, dy :: UpdatePosition(snake.squares, dx, dy)[0] == Shift(head, dx, dy)
    ensures !SelfCollision(snake.squares) ==> forall i :: 0 < i < |snake.squares| ==> snake.squares[i] != head
  {
    snake.squares[0]
  }

  /** The last segment, or nothing for a snake without segments. */
  function GetTail(snake: Snake): (tail: Option<Cell>)
    ensures tail.None? <==> |snake.squares| == 0
    ensures tail.Some? ==> tail.value in snake.squares && tail.value == snake.squares[|snake.squares| - 1]
  {
    if |snake.squares| > 0 then Some(snake.squares[|snake.squares| - 1]) else None
  }

  /** A cell moved by (dx, dy). */
  function Shift(p: Cell, dx: int, dy: int): Cell
  {
    Cell(p.row + dy, p.column + dx)
  }

  /** One movement step: every segment takes the place of the one ahead of
      it and the head moves by (dx, dy); the length does not change. */
  function UpdatePosition(squares: seq<Cell>, dx: int, dy: int): (r: seq<Cell>)
    ensures |r| == |squares|
    ensures |squares| > 0 ==> r[0] == Shift(squares[0], dx, dy)
    ensures forall i :: 0 < i < |squares| ==> r[i] == squares[i - 1]
  {
    if |squares| == 0 then [] else [Shift(squares[0], dx, dy)] + squares[..|squares| - 1]
  }

  /** The movement loop as the game runs it, overwriting in place from the
      tail towards the head. Segment i is written only after segment i + 1 has
      copied it, so no overwritten value is ever read. */
  method UpdatePositionInPlace(squares: seq<Cell>, dx: int, dy: int) returns (r: seq<Cell>)
    ensures r == UpdatePosition(squares, dx, dy)
  {
    r := squares;
    var i := |squares| - 1;
    while i >= 0
      invariant -1 <= i < |squares|
      invariant |r| == |squares|
      invariant forall j :: 0 <= j <= i ==> r[j] == squares[j]
      invariant forall j :: i < j < |squares| && j > 0 ==> r[j] == squares[j - 1]
      invariant i < 0 && |squares| > 0 ==> r[0] == Shift(squares[0], dx, dy)
    {
      if i > 0 {
        r := r[i := r[i - 1]];
      } else {
        r := r[i := Shift(r[i], dx, dy)];
      }
      i := i - 1;
    }
  }

  /** `head` is the cell of a segment other than the tail. */
  predicate MovesIntoBody(squares: seq<Cell>, head: Cell)
  {
    exists j :: 0 <= j < |squares| - 1 && squares[j] == head
  }

  /** After a move the head is on another segment exactly when it moved onto
      a cell of the old body other than the tail: the tail's cell is vacated
      by the same move, so following the tail is safe. */
  lemma MoveIntoBodyIsSelfCollision(squares: seq<Cell>, dx: int, dy: int)
    requires |squares| > 0
    ensures SelfCollision(UpdatePosition(squares, dx, dy))
            <==> MovesIntoBody(squares, Shift(squares[0], dx, dy))
  {
    var r := UpdatePosition(squares, dx, dy);
    if SelfCollision(r) {
      var i :| 0 < i < |r| && r[i] == r[0];
      assert squares[i - 1] == Shift(squares[0], dx, dy);
    }
    if MovesIntoBody(squares, Shift(squares[0], dx, dy)) {
      var j :| 0 <= j < |squares| - 1 && squares[j] == Shift(squares[0], dx, dy);
      assert r[j + 1] == r[0];
    }
  }

  /** Growth by one segment placed behind the tail, opposite to the movement
      (dx, dy); the existing segments stay where they are. */
  function AddSquare(snake: Snake, dx: int, dy: int): (r: Snake)
    requires |snake.squares| > 0
    ensures r == snake.(squares := r.squares)
    ensures |r.squares| == |snake.squares| + 1
    ensures r.squares[..|snake.squares|] == snake.squares
    ensures Shift(r.squares[|snake.squares|], dx, dy) == snake.squares[|snake.squares| - 1]
  {
    var tail := GetTail(snake).value;
    snake.(squares := snake.squares + [Cell(tail.row - dy, tail.column - dx)])
  }

  /** A moved snake stays connected, because the head moves by one cell. */
  lemma UpdatePositionKeepsConnected(squares: seq<Cell>, d: Direction)
    requires Connected(squares)
    ensures Connected(UpdatePosition(squares, DirectionDelta(d).dx, DirectionDelta(d).dy))
  {
  }

  /** A grown snake stays connected: the new segment is one cell behind the tail. */
  lemma AddSquareKeepsConnected(snake: Snake, d: Direction)
    requires |snake.squares| > 0
    requires Connected(snake.squares)
    ensures Connected(AddSquare(snake, DirectionDelta(d).dx, DirectionDelta(d).dy).squares)
  {
  }

  /** A one-cell snake that moves and then grows ends up covering its old
      cell and the cell it moved into. */
  lemma MoveThenGrowSingleCell(head: Cell, d: Direction)
    ensures var v := DirectionDelta(d);
            var moved := Snake(UpdatePosition([head], v.dx, v.dy), d, false, false);
            AddSquare(moved, v.dx, v.dy).squares == [Shift(head, v.dx, v.dy), head]
  {
  }

  /** The board centre. */
  function Centre(b: Board): Cell
  {
    Cell(b.Rows() / 2, b.Columns() / 2)
  }

  /** The snake at the start of a life: a lone head at the board centre,
      heading east, with both flags cleared. On a valid board the head is
      inside the playable area. */
  function InitSnake(b: Board): (s: Snake)
    ensures |s.squares| == 1 && Connected(s.squares) && !SelfCollision(s.squares)
    ensures s.direction == East && !s.hit && !s.dead
    ensures ValidBoard(b) ==> InSpawnRange(b, GetHead(s))
    ensures ValidBoard(b) ==> 2 * s.squares[0].row == b.Rows() && 2 * s.squares[0].column == b.Columns()
  {
    Snake([Centre(b)], East, false, false)
  }

  /** A heading change: accepted only when it is neither the current heading
      nor its opposite; nothing but the heading can change. */
  function CheckDirection(snake: Snake, d: Direction): (r: Snake)
    ensures r == snake.(direction := r.direction)
    ensures r.direction != GetOpposite(snake.direction)
    ensures r.direction == snake.direction || r.direction == d
    ensures r.direction != snake.direction <==> d != snake.direction && d != GetOpposite(snake.direction)
  {
    if snake.direction != d && d != GetOpposite(snake.direction) then snake.(direction := d) else snake
  }

  /** Both turns at right angles to the heading are accepted; the reverse and
      the current heading are not. */
  lemma CheckDirectionTurnsOnlySideways(snake: Snake, d: Direction)
    ensures var v := DirectionDelta(snake.direction);
            var w := DirectionDelta(d);
            CheckDirection(snake, d).direction == d <==> d == snake.direction || v.dx * w.dx + v.dy * w.dy == 0
  {
  }

  /** A single heading change never sends the head back onto the second
      segment, provided the heading is the one the last step was taken in. */
  lemma OnePressNeverTurnsBack(snake: Snake, d: Direction)
    requires |snake.squares| >= 2
    requires var v := DirectionDelta(snake.direction);
             snake.squares[0] == Shift(snake.squares[1], v.dx, v.dy)
    ensures var w := DirectionDelta(CheckDirection(snake, d).direction);
            Shift(snake.squares[0], w.dx, w.dy) != snake.squares[1]
  {
  }

  /** One movement step of the snake towards the dot within the frame. The
      snake moves one cell in its heading; `hit` says whether the head reached
      the dot, and then the snake grows by one and `dead` keeps its value;
      otherwise `dead` says whether the head crossed the frame or reached
      another segment. The heading never changes. */
  function UpdateSnake(snake: Snake, dot: Cell, frame: Frame): (r: Snake)
    requires |snake.squares| > 0
    ensures var v := DirectionDelta(snake.direction);
            var moved := UpdatePosition(snake.squares, v.dx, v.dy);
            && |r.squares| > 0
            && r.direction == snake.direction
            && r.squares[0] == Shift(snake.squares[0], v.dx, v.dy)
            && (r.hit <==> r.squares[0] == dot)
            && (r.hit ==> r.squares == AddSquare(snake.(squares := moved), v.dx, v.dy).squares && r.dead == snake.dead)
            && (!r.hit ==> r.squares == moved)
            && (!r.hit ==> (r.dead <==> (IsFrameCollision(frame, r.squares[0]) ||
                                         exists i :: 0 < i < |r.squares| && r.squares[i] == r.squares[0])))
  {
    var v := DirectionDelta(snake.direction);
    var moved := UpdatePosition(snake.squares, v.dx, v.dy);
    var head := moved[0];
    var hit := IsCollision(head, dot, CELL_SIZE);
    if hit then
      AddSquare(snake.(squares := moved), v.dx, v.dy).(hit := true)
    else
      snake.(squares := moved, hit := false,
             dead := IsFrameCollision(frame, head) || SelfCollision(moved))
  }

  /** Moving and growing keep a connected snake connected. */
  lemma UpdateSnakeKeepsConnected(snake: Snake, dot: Cell, frame: Frame)
    requires |snake.squares| > 0
    requires Connected(snake.squares)
    ensures Connected(UpdateSnake(snake, dot, frame).squares)
  {
  }
}

=== FILE: wrappers.dfy ===
/** An optional value, used where the game returns `null`. */
module Wrappers {

  datatype Option<+T> = None | Some(value: T)

}
